=== FILE: README.md ===
# Breathing timer — a Dafny model

This project models the core of a guided-breathing timer. The timer walks through the
cycle inhale → hold1 → exhale → hold2. Each phase has a duration in whole seconds, and a
phase of length zero is skipped. An optional session length in minutes stops the run. A
list of named presets (built-in ones, then user-made "custom" ones) can be copied into the
editable configuration.

The model covers two parts:

- **The helpers of `features/breathing/lib/utils.ts`** and their older copy in
  `features/breathing/utils.ts`: `clampSec`, `nextPhase`, `isSameDurations`,
  `isSamePresetConfig` and `formatMinutesSeconds`. Their contracts are exact, and the
  formatter has a decoder with a round-trip proof.
- **The `useBreathingTimer` hook** with React taken away. Its state is one immutable
  record, `Timer.TimerState`, holding `draft`, `active`, `repeatMinutes`, `phase`,
  `remainingMs`, `sessionRemainingMs`, `isRunning` and `customPresets`. Every action,
  every interval tick and every derived value (`progress`, `remainingSecDisplay`,
  `totalActiveSec`) is a pure function of that record.

Modules, one per source concern:

| module | file | models |
|---|---|---|
| `Wrappers` | wrappers.dfy | the optional value that stands for `null` / `undefined` |
| `Lists` | lists.dfy | `map(...).filter(Boolean)` over a sequence |
| `Types` | types.dfy | the records of `lib/types.ts`, `PHASE_ORDER` and `TICK_MS` |
| `Utils` | utils.dfy | `lib/utils.ts` except the formatter |
| `LegacyUtils` | legacy_utils.dfy | the older `utils.ts` / `constants.ts` pair, shown to agree with `Utils` |
| `Format` | format.dfy | `formatMinutesSeconds`, plus a reader for its output |
| `Sanitize` | sanitize.dfy | `sanitizeCustomPreset` and loading the stored custom list |
| `Presets` | presets.dfy | the preset list: catalogue, lookup, add, remove |
| `PhaseScan` | scan.dfy | the tick's search for the next phase with a positive duration |
| `Timer` | timer.dfy | the state record, its transitions and derived values |
| `TimerProperties` | timer_properties.dfy | reachable-state invariant, tick counts, concrete runs |

How the React layer is rendered:

- Every `*Ref` mirror is taken to equal the state it mirrors.
- The effects that react to a change run before the next action does. `Timer.Settle`
  models the two effects that change timer state:
  - When `repeatMinutes` changes while idle, the session is re-armed (lines 141-148).
  - When the draft is written, or `phase` or `remainingMs` changes, while idle,
    `remainingMs` is re-synced to `draft[phase] * 1000` (lines 267-275).
- Every transition that writes an effect dependency (`draft`, `phase`, `remainingMs`,
  `repeatMinutes` or `isRunning`) is its state setters followed by `Settle`. `AddPreset`,
  `RemovePreset` and `LoadPresets` write only the custom list, which no effect depends on,
  so they do not go through `Settle`.
- A tick is one atomic transition. The interval exists only while `isRunning`, so `Tick`
  requires a running state. In `TimerProperties.Step`, an interval firing while idle
  changes nothing.
- The built-in preset list (`data/presets`) is not part of this model. It is a
  `seq<Preset>` parameter wherever the catalogue is used.
- The generated name `custom_<Date.now()>` is a `freshName` parameter.

Behaviour of the code that the contracts make visible:

- **`start()` has no guard against an all-zero draft.** Only the screen's button stands
  in the way, and it is disabled on the *active* total (BreathingScreen.tsx:414-416), not
  on the draft. Such a start runs, and its first tick stops it
  (`TimerProperties.ZeroDraftStopsOnFirstTick`).
- **`start()` keeps the current phase** and reloads that phase's full length from the
  draft. It does not go back to inhale, and a pause followed by a start does not resume
  mid-phase.
- **A session-expiry tick** sets `remainingMs` to 0. When that changes `remainingMs`, the
  idle re-sync effect immediately sets it back to `draft[phase] * 1000`. So the settled
  state shows 0 only when the phase time was already 0 or the draft gives the current
  phase no time (`Timer.Tick`): the tick writes 0, and the idle re-sync effect then
  overwrites it with the draft's length for that phase.
- **After a pause mid-phase, editing any draft field** re-syncs the current phase's
  remaining time, not only an edit of that phase (`TimerProperties.IdleDraftEdits`).
- **`addPreset` looks for duplicates among the custom presets only.** A configuration equal
  to a built-in preset is still added (`Presets.AddCustomPreset`).
- **The hook has no favourites, hidden built-ins, pre-start countdown or deadline-based
  timing.** Each tick takes exactly `TICK_MS` = 100 ms off the clock.

## Model

| member | source | states |
|---|---|---|
| Utils.ClampSec | features/breathing/lib/utils.ts:4 | the result is a natural number; it is 0 exactly when the input is below 0.5, and otherwise the integer nearest the input, halves rounding up |
| Utils.ClampSecOfNat | features/breathing/lib/utils.ts:4 | a non-negative integer passes through clampSec unchanged |
| Utils.ClampSecIdempotent | features/breathing/lib/utils.ts:4 | clampSec applied twice equals clampSec applied once |
| Utils.IndexOf | features/breathing/lib/utils.ts:7 | the index found in PHASE_ORDER holds the phase looked up |
| Utils.NextPhase | features/breathing/lib/utils.ts:6-9 | the successor is never the phase itself and sits one place further in PHASE_ORDER, modulo its length |
| Utils.NextPhaseCycle | features/breathing/lib/utils.ts:6-9 | the successors are inhale→hold1→exhale→hold2→inhale |
| Utils.AdvanceIndex | features/breathing/lib/utils.ts:6-9 | k applications of nextPhase move k places along PHASE_ORDER, modulo four |
| Utils.AdvanceFour | features/breathing/lib/utils.ts:6-9 | k applications return the start exactly when k is a multiple of four |
| Utils.IsSameDurations | features/breathing/lib/utils.ts:11-18 | true exactly when all four durations agree, i.e. the two duration sets are the same value |
| Utils.IsSameDurationsEquivalence | features/breathing/lib/utils.ts:11-18 | isSameDurations is reflexive, symmetric and transitive |
| Utils.IsSamePresetConfig | features/breathing/lib/utils.ts:20-29 | true exactly when the preset has these durations and this repeat length |
| LegacyUtils.ClampSec | features/breathing/utils.ts:4 | same characterisation as the newer clampSec: 0 below 0.5, otherwise the nearest integer |
| LegacyUtils.LegacyIndexOf | features/breathing/utils.ts:7 | the index found in the older PHASE_ORDER holds the phase |
| LegacyUtils.NextPhase | features/breathing/utils.ts:6-9 | the successor differs from the phase and is one place further in the older PHASE_ORDER |
| LegacyUtils.IsSameDurations | features/breathing/utils.ts:11-13 | true exactly when the two duration sets are equal |
| LegacyUtils.LegacyNextPhaseFour | features/breathing/utils.ts:6-9 | four applications return the start; two or three do not |
| LegacyUtils.LegacyClampSecIdempotent | features/breathing/utils.ts:4 | the older clampSec is idempotent and fixes non-negative integers |
| LegacyUtils.LegacyAgreesWithUtils | features/breathing/utils.ts:1-13 | the older copy returns what the newer helpers return on every input |
| Format.Decimal | features/breathing/lib/utils.ts:35 | String(n) is a non-empty digit string without leading zero that reads back as n |
| Format.PadStart | features/breathing/lib/utils.ts:35 | padStart keeps the string as a suffix, fills the front with the fill character, and reaches the width |
| Format.TwoDigits | features/breathing/lib/utils.ts:35 | the padded number has at least two digits, exactly two below 100, no leading zero when longer, and reads back as the number |
| Format.WholeSecondsBracket | features/breathing/lib/utils.ts:32 | whole seconds of a non-negative input bracket it within one second; zero exactly below 1000 ms |
| Format.FormatMinutesSeconds | features/breathing/lib/utils.ts:31-36 | the output is minutes (exactly two digits below 100 minutes, otherwise without a leading zero, never cut at 99), a colon and two seconds digits below 60, whose values are the whole seconds divided and taken modulo 60 |
| Format.FormatRoundTrip | features/breathing/lib/utils.ts:31-36 | reading the output back as minutes*60 + seconds gives max(0, floor(ms/1000)) |
| Format.FormatInjective | features/breathing/lib/utils.ts:31-36 | two inputs format alike exactly when their whole seconds agree |
| Format.FormatBelowOneSecond | features/breathing/lib/utils.ts:32-35 | negative input and anything below 1000 ms formats as 00:00 |
| Format.FormatSixtyFiveSeconds | features/breathing/lib/utils.ts:32-35 | 65000 ms formats as 01:05 |
| Sanitize.ToNumber | features/breathing/hooks/useBreathingTimer.ts:37-41 | Number() keeps a number, and turns a missing property or a plain object into NaN |
| Sanitize.SanitizeCustomPreset | features/breathing/hooks/useBreathingTimer.ts:31-63 | null exactly when the input is not an object, the name is not a string, the durations are not an object, or one of the five numbers is not finite; otherwise a custom preset with that name, the label only when it is a string, no translation key, and every number through clampSec |
| Sanitize.SanitizePersisted | features/breathing/hooks/useBreathingTimer.ts:315-325 | the record written for a custom preset sanitises back to that same preset |
| Sanitize.SanitizeAll | features/breathing/hooks/useBreathingTimer.ts:109-111 | a preset is kept exactly when some entry sanitises to it; the kept entries are custom presets, no more than the input, and all of them when each entry sanitises |
| Sanitize.SanitizeAllSingle | features/breathing/hooks/useBreathingTimer.ts:109-111 | a one-entry list keeps its preset exactly when the entry sanitises |
| Sanitize.SanitizeAllDistributes | features/breathing/hooks/useBreathingTimer.ts:109-111 | sanitising a concatenation is the concatenation of the sanitised halves, so the kept presets stay in entry order |
| Lists.FilterSome | features/breathing/hooks/useBreathingTimer.ts:109-111 | map-then-filter keeps exactly the present results, never more than the entries, and all of them when every entry gives one |
| Lists.FilterSomeSingle | features/breathing/hooks/useBreathingTimer.ts:109-111 | one entry is kept exactly when the mapping gives a result |
| Lists.FilterSomeDistributes | features/breathing/hooks/useBreathingTimer.ts:109-111 | map-then-filter distributes over concatenation, so results keep entry order |
| Lists.FilterSomeAll | features/breathing/hooks/useBreathingTimer.ts:109-111 | when every entry gives a result, the output is exactly those results in order |
| Sanitize.SanitizeAllAccepted | features/breathing/hooks/useBreathingTimer.ts:109-111 | when every entry sanitises, the kept list is exactly their presets, in the original order |
| Sanitize.LoadCustomPresets | features/breathing/hooks/useBreathingTimer.ts:106-114 | a decoded non-array leaves the list alone; an array yields only custom presets, and exactly those its entries sanitise to |
| Sanitize.PersistedFields | features/breathing/hooks/useBreathingTimer.ts:318-323 | a written record is an object whose name, durations, label and five numbers read back as the preset's own |
| Sanitize.LoadPersistedList | features/breathing/hooks/useBreathingTimer.ts:106-114 | a written custom list loads back as exactly that list |
| Presets.Catalog | features/breathing/hooks/useBreathingTimer.ts:83-86 | the built-ins come first, then the custom presets, nothing else |
| Presets.FindByName | features/breathing/hooks/useBreathingTimer.ts:282 | none exactly when no preset has the name; otherwise the first preset carrying it |
| Presets.AddCustomPreset | features/breathing/hooks/useBreathingTimer.ts:288-327 | unchanged when a custom preset has the clamped configuration; otherwise exactly one clamped custom preset with the fresh name and label appended; afterwards the configuration is present |
| Presets.AddPresetTwice | features/breathing/hooks/useBreathingTimer.ts:298-304 | adding the same configuration again changes nothing, whatever the label or name |
| Presets.RemoveCustomPreset | features/breathing/hooks/useBreathingTimer.ts:332-349 | exactly the presets of other names survive; with no match the list is unchanged; with a match it shrinks |
| Presets.RemoveIdempotent | features/breathing/hooks/useBreathingTimer.ts:334-335 | removing a name twice equals removing it once |
| Presets.RemoveDistributes | features/breathing/hooks/useBreathingTimer.ts:334 | removal distributes over concatenation, so survivors keep their order |
| Presets.RemoveSingle | features/breathing/hooks/useBreathingTimer.ts:334 | a single entry is dropped exactly when it carries the name |
| Presets.BuiltinsFirst | features/breathing/hooks/useBreathingTimer.ts:83-86 | after an add or a remove, the list still starts with the unchanged built-ins |
| PhaseScan.Distance | features/breathing/hooks/useBreathingTimer.ts:238-243 | the number of nextPhase steps from one phase to another lies between 1 and 4 |
| PhaseScan.DistanceOfAdvance | features/breathing/hooks/useBreathingTimer.ts:238-243 | k steps ahead, for k from 1 to 4, lies at distance k |
| PhaseScan.AdvanceOfDistance | features/breathing/hooks/useBreathingTimer.ts:238-243 | every phase is reached by walking its distance |
| PhaseScan.ScanFindsNearest | features/breathing/hooks/useBreathingTimer.ts:240-243 | the loop, having passed only empty phases, stops at the nearest phase with positive duration |
| PhaseScan.NextRunnable | features/breathing/hooks/useBreathingTimer.ts:237-243 | with a positive total, the chosen phase has positive duration and every phase nearer in the cycle has duration zero |
| PhaseScan.NextRunnableWraps | features/breathing/hooks/useBreathingTimer.ts:237-243 | the search returns to the current phase exactly when that phase is the only one with positive duration |
| Timer.PhaseMs | features/breathing/hooks/useBreathingTimer.ts:174 | a phase length in milliseconds is a multiple of 1000 (hence of TICK_MS) whose quotient is the duration |
| Timer.SessionFor | features/breathing/hooks/useBreathingTimer.ts:182-183 | no session exactly when repeatMinutes is 0; otherwise a positive multiple of 60000 whose quotient is repeatMinutes |
| Timer.Initial | features/breathing/hooks/useBreathingTimer.ts:67-81 | the mounted timer has draft 4/0/6/0 and repeat 5, is idle at inhale, active equals draft, the phase time is the draft's inhale, the session is armed from repeatMinutes and there are no custom presets |
| Timer.Settle | features/breathing/hooks/useBreathingTimer.ts:267-275 | the re-sync effect together with the repeat effect of lines 141-148: while running nothing changes; while idle a changed repeat length re-arms the session, and a draft write, phase change or remaining-time change reloads the phase time from the draft; nothing else changes |
| Timer.SettleSettles | features/breathing/hooks/useBreathingTimer.ts:267-275 | the render caused by the effects' own writes changes nothing more |
| Timer.Reset | features/breathing/hooks/useBreathingTimer.ts:177-186 | stops, sets active to the draft, phase to inhale, remaining to draft.inhale*1000, re-arms the session, leaves draft, repeat and presets |
| Timer.Start | features/breathing/hooks/useBreathingTimer.ts:188-202 | no-op while running; otherwise runs with active := draft, the phase unchanged, its full draft length loaded, the session re-armed |
| Timer.Pause | features/breathing/hooks/useBreathingTimer.ts:204-206 | only isRunning changes |
| Timer.ToggleRun | features/breathing/hooks/useBreathingTimer.ts:208-211 | flips isRunning; while running nothing else moves; while idle it takes the draft and reloads the current phase |
| Timer.Tick | features/breathing/hooks/useBreathingTimer.ts:218-260 | the session drops by exactly TICK_MS first and, reaching zero, stops the run with phase and active kept; a finished phase takes the draft and either stops (all zero) or moves to the next runnable phase at its full length; otherwise the phase time drops by exactly TICK_MS |
| Timer.SetDraftField | features/breathing/hooks/useBreathingTimer.ts:267-279 | only the named draft field changes, to clampSec(v); while idle the phase time follows the draft, while running it is untouched; the session never moves |
| Timer.SetRepeatMinutes | features/breathing/hooks/useBreathingTimer.ts:141-148 | stores the value; while idle a changed value re-arms the session, otherwise the session is untouched |
| Timer.ApplyPreset | features/breathing/hooks/useBreathingTimer.ts:281-286 | an unknown name changes nothing; otherwise draft and repeat become the first such preset's, phase, active and run state stay, and while idle the phase time follows and a changed repeat length re-arms the session |
| Timer.AddPreset | features/breathing/hooks/useBreathingTimer.ts:288-330 | only the custom list changes: the state is returned unchanged when a custom preset already has the clamped configuration; otherwise the old list is kept as a prefix and exactly one new custom preset (fresh name, label, clamped values) is appended; afterwards the configuration is present |
| Timer.RemovePreset | features/breathing/hooks/useBreathingTimer.ts:332-349 | only the custom list changes, losing exactly the presets of that name |
| Timer.LoadPresets | features/breathing/hooks/useBreathingTimer.ts:101-123 | only the custom list changes, and not at all when the decoded value is not an array; for an array the list becomes the sanitised entries, holding exactly the presets the entries sanitise to |
| Timer.PresetList | features/breathing/hooks/useBreathingTimer.ts:83-86 | built-ins first, then the state's custom presets |
| Timer.Progress | features/breathing/hooks/useBreathingTimer.ts:150-159 | in [0, 1]; 1 for an empty phase; the elapsed share when the phase time lies within the phase; 0 when it is at or above the phase length |
| Timer.RemainingSecDisplay | features/breathing/hooks/useBreathingTimer.ts:161-163 | the ceiling of the phase time in seconds: the smallest r with remainingMs <= r*1000 |
| Timer.TotalActiveSec | features/breathing/hooks/useBreathingTimer.ts:351 | the sum of the active durations; zero exactly when every active phase is empty |
| TimerProperties.InitialInv | features/breathing/hooks/useBreathingTimer.ts:67-81 | the mounted state satisfies the invariant |
| TimerProperties.TickInv | features/breathing/hooks/useBreathingTimer.ts:218-260 | a tick keeps the phase and session times non-negative multiples of TICK_MS and a running session positive |
| TimerProperties.TickInvSession | features/breathing/hooks/useBreathingTimer.ts:219-222 | the session time stays a multiple of TICK_MS across a tick |
| TimerProperties.TickInvExpired | features/breathing/hooks/useBreathingTimer.ts:223-228 | the session-expiry tick keeps the invariant |
| TimerProperties.TickInvPhaseEnd | features/breathing/hooks/useBreathingTimer.ts:231-255 | the phase-advance tick keeps the invariant |
| TimerProperties.TickInvCountdown | features/breathing/hooks/useBreathingTimer.ts:257-259 | the countdown tick keeps the invariant |
| TimerProperties.StepInv | features/breathing/hooks/useBreathingTimer.ts:177-349 | every action keeps the invariant |
| TimerProperties.RunInv | features/breathing/hooks/useBreathingTimer.ts:177-349 | any sequence of actions keeps the invariant |
| TimerProperties.Reachable | features/breathing/hooks/useBreathingTimer.ts:154-159 | in every state reachable from mounting, remainingMs and the session are non-negative multiples of 100 and progress lies in [0, 1] |
| TimerProperties.PhaseCountdown | features/breathing/hooks/useBreathingTimer.ts:257-259 | without a session, a phase with k ticks left reaches zero after exactly k ticks, nothing else changing |
| TimerProperties.SessionRunsOut | features/breathing/hooks/useBreathingTimer.ts:219-229 | a session with k ticks left still runs after k-1 ticks and stops on the k-th with its clock at zero |
| TimerProperties.SkipsEmptyHold | features/breathing/hooks/useBreathingTimer.ts:231-255 | 4/0/6/0 without a session: 40 ticks count the inhale down, the next tick skips hold1 into a 6000 ms exhale |
| TimerProperties.OneMinuteSession | features/breathing/hooks/useBreathingTimer.ts:219-229 | 4/4/4/4 with one minute: the session starts at 60000 ms, runs after 599 ticks and has stopped after 600 |
| TimerProperties.ZeroDraftStopsOnFirstTick | features/breathing/hooks/useBreathingTimer.ts:188-250 | an idle timer with an all-zero draft starts, and its first tick stops it in place with an empty active set |
| TimerProperties.PauseThenStartRestartsPhase | features/breathing/hooks/useBreathingTimer.ts:188-211 | pause then start keeps the phase but reloads its full draft length and a fresh session |
| TimerProperties.IdleDraftEdits | features/breathing/hooks/useBreathingTimer.ts:267-279 | while idle, editing the current phase sets its time to the new value; editing another leaves an in-step time alone, and reloads the current phase otherwise |
| TimerProperties.ResetIdempotent | features/breathing/hooks/useBreathingTimer.ts:177-186 | reset twice equals reset once |

## Left out

- Storage of custom presets. This covers SecureStore reads and writes, `JSON.parse` and
  `JSON.stringify`, and the load being cancelled on unmount. The model starts from an
  already-decoded value. `Sanitize.Persisted` gives the shape of a written record, and
  failed writes are ignored as in the code.
- Sanitize.ToNumber: converting a string, or an array joined into a string, follows
  JavaScript's numeric-string grammar. That grammar is a `coerceText` parameter, not a
  definition. `Number(obj)` on a plain object throws a TypeError when the object has its
  own `toString` key holding a non-function (as a decoded JSON value can): the inherited
  `valueOf` returns the object itself, so the conversion falls through to that `toString`,
  which cannot be called. The model treats every plain object as NaN.
- Sanitize.LoadCustomPresets: in the code, one stored entry whose duration or repeat field
  is such an object makes the conversion throw out of the `.map` (useBreathingTimer.ts:109-111).
  The catch at line 115 swallows the error, and no custom preset loads at all. In the model
  that entry alone is rejected and the other entries load.
- Utils.ClampSec: takes a finite number (`real`). NaN and infinities are not modelled for
  `setDraftField` and `addPreset`, whose callers pass slider values and the draft. The
  sanitiser rejects them before clamping.
- Timer.SetRepeatMinutes: takes a natural number. The raw React setter accepts any
  number, but its callers pass slider values and preset data.
- Timer.ApplyPreset: React skips the re-sync effect when the draft is set to the very
  object it already holds, which happens when the same preset is applied twice in a row
  with no edit between. The model treats every draft write as a change. So after a
  mid-phase pause, applying the same preset again reloads the phase time here but not in
  the code.
- Timer.Progress and Format.Decimal: exact `real` division and unbounded integers stand in
  for IEEE doubles. The double rounding in `progress`'s division (useBreathingTimer.ts:158)
  is not modelled. Neither is `String(n)` switching to exponent notation at 1e21 and above.
  Neither is reachable with the clamped inputs.
- Format.FormatMinutesSeconds: takes whole milliseconds. Every caller passes an integer
  (the session time, or slider seconds times 1000).
- `setInterval`, `clearTimer` and effect ordering. One tick is one atomic transition, and
  the effects have run before the next action.
- The built-in preset contents are a parameter. Their durations are taken to be
  non-negative integers.
- The `isFavorite` field of the preset record. The timer never reads or writes it.
- Screens, styles, animation, audio, haptics, keep-awake, app state, preferences and
  translations are presentation and platform code with no timer logic.

=== FILE: format.dfy ===
/**
 * `formatMinutesSeconds` of features/breathing/lib/utils.ts: milliseconds
 * rendered as zero-padded minutes, a colon and two-digit seconds, together
 * with a reader that decodes such a string back to whole seconds.
 */
module Format {
  import opened Wrappers

  predicate IsDigit(c: char)
  {
    '0' <= c <= '9'
  }

  predicate AllDigits(s: string)
  {
    forall i :: 0 <= i < |s| ==> IsDigit(s[i])
  }

  function DigitChar(d: nat): (c: char)
    requires d < 10
    ensures IsDigit(c) && DigitValue(c) == d
  {
    ('0' as int + d) as char
  }

  function DigitValue(c: char): nat
    requires IsDigit(c)
  {
    c as int - '0' as int
  }

  /** The value of a string of decimal digits, most significant first; `""` reads as 0. */
  function ReadDecimal(s: string): nat
    requires AllDigits(s)
  {
    if s == [] then 0 else ReadDecimal(s[..|s| - 1]) * 10 + DigitValue(s[|s| - 1])
  }

  /** `String(n)` for a non-negative integer: its decimal digits without leading zeros. */
  function Decimal(n: nat): (s: string)
    ensures 1 <= |s| && AllDigits(s)
    ensures ReadDecimal(s) == n
    ensures |s| > 1 ==> s[0] != '0'
    decreases n
  {
    if n < 10 then [DigitChar(n)]
    else
      var init := Decimal(n / 10);
      var s := init + [DigitChar(n % 10)];
      assert s[..|s| - 1] == init;
      s
  }

  /** `s.padStart(width, fill)` with a one-character fill. */
  function PadStart(s: string, width: nat, fill: char): (r: string)
    ensures |r| == if |s| >= width then |s| else width
    ensures r[|r| - |s|..] == s
    ensures forall i :: 0 <= i < |r| - |s| ==> r[i] == fill
  {
    if |s| >= width then s else seq(width - |s|, _ => fill) + s
  }

  /** Leading zeros do not change the value of a digit string. */
  lemma {:induction false} ReadDecimalLeadingZeros(z: string, s: string)
    requires forall i :: 0 <= i < |z| ==> z[i] == '0'
    requires AllDigits(s)
    ensures AllDigits(z + s)
    ensures ReadDecimal(z + s) == ReadDecimal(s)
    decreases |s|
  {
    if s == [] {
      assert z + s == z;
      ReadZeros(z);
    } else {
      var t := z + s;
      assert t[..|t| - 1] == z + s[..|s| - 1];
      ReadDecimalLeadingZeros(z, s[..|s| - 1]);
    }
  }

  /** A string of zeros reads as 0. */
  lemma {:induction false} ReadZeros(z: string)
    requires forall i :: 0 <= i < |z| ==> z[i] == '0'
    ensures AllDigits(z) && ReadDecimal(z) == 0
  {
    if z != [] {
      ReadZeros(z[..|z| - 1]);
    }
  }

  /** `String(n).padStart(2, "0")`. */
  function TwoDigits(n: nat): (s: string)
    ensures 2 <= |s| && AllDigits(s)
    ensures ReadDecimal(s) == n
    ensures n < 100 ==> |s| == 2
    ensures |s| > 2 ==> s[0] != '0'
  {
    var d := Decimal(n);
    var s := PadStart(d, 2, '0');
    var z := s[..|s| - |d|];
    assert s == z + d;
    ReadDecimalLeadingZeros(z, d);
    assert n < 100 ==> |d| <= 2 by {
      if n < 100 && |d| > 2 {
        DecimalLength(n);
      }
    }
    s
  }

  /** A decimal numeral of more than two digits stands for at least 100. */
  lemma {:induction false} DecimalLength(n: nat)
    ensures |Decimal(n)| > 2 ==> n >= 100
  {
    if n >= 10 {
      DecimalLength(n / 10);
    }
  }

  /** `Math.max(0, Math.floor(ms / 1000))`: elapsed whole seconds, never negative. */
  function WholeSeconds(ms: int): nat
  {
    var q := ms / 1000;
    if q > 0 then q else 0
  }

  /** The whole seconds of a non-negative input bracket it within one second; they are zero exactly below one second. */
  lemma WholeSecondsBracket(ms: int)
    ensures ms >= 0 ==> WholeSeconds(ms) * 1000 <= ms < (WholeSeconds(ms) + 1) * 1000
    ensures ms < 1000 <==> WholeSeconds(ms) == 0
  {
  }

  /** The minutes part of an `M:SS` string: everything before the last three characters. */
  function MinutesPart(s: string): string
    requires |s| >= 3
  {
    s[..|s| - 3]
  }

  /** The seconds part of an `M:SS` string: its last two characters. */
  function SecondsPart(s: string): string
    requires |s| >= 3
  {
    s[|s| - 2..]
  }

  /** `formatMinutesSeconds(ms)`. */
  function FormatMinutesSeconds(ms: int): (r: string)
    ensures |r| >= 5 && r[|r| - 3] == ':'
    ensures |MinutesPart(r)| >= 2 && AllDigits(MinutesPart(r))
    ensures |SecondsPart(r)| == 2 && AllDigits(SecondsPart(r)) && ReadDecimal(SecondsPart(r)) < 60
    ensures ReadDecimal(MinutesPart(r)) == WholeSeconds(ms) / 60
    ensures ReadDecimal(SecondsPart(r)) == WholeSeconds(ms) % 60
    ensures WholeSeconds(ms) / 60 < 100 ==> |MinutesPart(r)| == 2
    ensures |MinutesPart(r)| > 2 ==> r[0] != '0'
  {
    var totalSeconds := WholeSeconds(ms);
    var minutes := totalSeconds / 60;
    var seconds := totalSeconds % 60;
    var mm := TwoDigits(minutes);
    var ss := TwoDigits(seconds);
    var r := mm + ":" + ss;
    assert MinutesPart(r) == mm;
    assert SecondsPart(r) == ss;
    r
  }

  /** Reads an `M:SS` string (at least one minute digit, exactly two second digits below 60) back to whole seconds. */
  function ReadMinutesSeconds(s: string): Option<nat>
  {
    if |s| >= 4 && s[|s| - 3] == ':' && AllDigits(MinutesPart(s)) && AllDigits(SecondsPart(s))
       && ReadDecimal(SecondsPart(s)) < 60
    then Some(ReadDecimal(MinutesPart(s)) * 60 + ReadDecimal(SecondsPart(s)))
    else None
  }

  /** A string of the formatter's shape reads back as its minutes times 60 plus its seconds. */
  lemma ReadShaped(r: string, m: nat, sec: nat, t: nat)
    requires |r| >= 5 && r[|r| - 3] == ':'
    requires AllDigits(MinutesPart(r)) && AllDigits(SecondsPart(r))
    requires ReadDecimal(MinutesPart(r)) == m && ReadDecimal(SecondsPart(r)) == sec && sec < 60
    requires m * 60 + sec == t
    ensures ReadMinutesSeconds(r) == Some(t)
  {
  }

  /** Reading the formatted string back yields the whole seconds of the input. */
  lemma FormatRoundTrip(ms: int)
    ensures ReadMinutesSeconds(FormatMinutesSeconds(ms)) == Some(WholeSeconds(ms))
  {
    var t := WholeSeconds(ms);
    var m, sec := t / 60, t % 60;
    DivModSixty(t, m, sec);
    ReadShaped(FormatMinutesSeconds(ms), m, sec, t);
  }

  lemma DivModSixty(t: nat, m: nat, sec: nat)
    requires m == t / 60 && sec == t % 60
    ensures m * 60 + sec == t
  {
  }

  /** Two inputs format alike exactly when they hold the same whole seconds. */
  lemma FormatInjective(a: int, b: int)
    ensures FormatMinutesSeconds(a) == FormatMinutesSeconds(b) <==> WholeSeconds(a) == WholeSeconds(b)
  {
    FormatRoundTrip(a);
    FormatRoundTrip(b);
  }

  /** Negative input and anything under a second show `00:00`. */
  lemma FormatBelowOneSecond(ms: int)
    requires ms < 1000
    ensures FormatMinutesSeconds(ms) == "00:00"
  {
    WholeSecondsBracket(ms);
    assert WholeSeconds(ms) == 0;
    assert Decimal(0) == "0";
    assert TwoDigits(0) == "00";
  }

  /** 65000 ms shows `01:05`. */
  lemma FormatSixtyFiveSeconds()
    ensures FormatMinutesSeconds(65000) == "01:05"
  {
    assert WholeSeconds(65000) == 65;
    assert 65 / 60 == 1 && 65 % 60 == 5;
    assert Decimal(1) == "1";
    assert Decimal(5) == "5";
    assert TwoDigits(1) == "01";
    assert TwoDigits(5) == "05";
    assert FormatMinutesSeconds(65000) == TwoDigits(1) + ":" + TwoDigits(5);
  }
}

=== FILE: legacy_utils.dfy ===
/**
 * The older copy of the helpers, features/breathing/utils.ts, together with the
 * phase order of features/breathing/constants.ts that it reads. It is kept as
 * its own module and shown to agree everywhere with `Utils`.
 */
module LegacyUtils {
  import opened Types
  import Utils

  /** `PHASE_ORDER` of the older constants file. */
  const LegacyPhaseOrder: seq<Phase> := [Inhale, Hold1, Exhale, Hold2]

  /** `clampSec`: `Math.max(0, Math.round(n))` for a finite `n`. */
  function ClampSec(n: real): (r: nat)
    ensures r == 0 <==> n < 0.5
    ensures r > 0 ==> r as real - 0.5 <= n < r as real + 0.5
  {
    var k := (n + 0.5).Floor;
    if k > 0 then k else 0
  }

  /** `PHASE_ORDER.indexOf` over the older order. */
  function LegacyIndexOf(p: Phase): (i: nat)
    ensures i < |LegacyPhaseOrder| && LegacyPhaseOrder[i] == p
  {
    match p
    case Inhale => 0
    case Hold1 => 1
    case Exhale => 2
    case Hold2 => 3
  }

  /** `nextPhase` over the older order. */
  function NextPhase(current: Phase): (r: Phase)
    ensures r != current
    ensures LegacyIndexOf(r) == (LegacyIndexOf(current) + 1) % |LegacyPhaseOrder|
  {
    LegacyPhaseOrder[(LegacyIndexOf(current) + 1) % |LegacyPhaseOrder|]
  }

  /** `isSameDurations`: field-wise equality. */
  function IsSameDurations(a: Durations, b: Durations): (r: bool)
    ensures r <==> a == b
  {
    a.inhale == b.inhale && a.hold1 == b.hold1 && a.exhale == b.exhale && a.hold2 == b.hold2
  }

  /** Four applications of the older `nextPhase` return the start. */
  lemma LegacyNextPhaseFour(p: Phase)
    ensures NextPhase(NextPhase(NextPhase(NextPhase(p)))) == p
    ensures NextPhase(NextPhase(p)) != p && NextPhase(NextPhase(NextPhase(p))) != p
  {
  }

  /** `clampSec` of the older file is idempotent and fixes every non-negative integer. */
  lemma LegacyClampSecIdempotent(n: real, k: nat)
    ensures ClampSec(ClampSec(n) as real) == ClampSec(n)
    ensures ClampSec(k as real) == k
  {
    assert (k as real + 0.5).Floor == k;
    var c := ClampSec(n);
    assert (c as real + 0.5).Floor == c;
  }

  /** The older copy computes exactly what the newer helpers compute, on every input. */
  lemma LegacyAgreesWithUtils(n: real, p: Phase, a: Durations, b: Durations)
    ensures ClampSec(n) == Utils.ClampSec(n)
    ensures NextPhase(p) == Utils.NextPhase(p)
    ensures IsSameDurations(a, b) == Utils.IsSameDurations(a, b)
  {
  }
}

=== FILE: lists.dfy ===
/** Sequence operations the loader is built from. */
module Lists {
  import opened Wrappers

  /**
   * `items.map(f).filter(Boolean)` for an `f` that returns an object or
   * `null`: the present results, in the order of their entries.
   */
  function FilterSome<A, B(==, !new)>(items: seq<A>, f: A -> Option<B>): (r: seq<B>)
    ensures |r| <= |items|
    ensures (forall i :: 0 <= i < |items| ==> f(items[i]).Some?) ==> |r| == |items|
    ensures forall x :: x in r <==> exists i :: 0 <= i < |items| && f(items[i]) == Some(x)
  {
    if items == [] then []
    else
      var rest := FilterSome(items[1..], f);
      assert forall x :: (exists i :: 0 <= i < |items| - 1 && f(items[1..][i]) == Some(x)) <==>
                         (exists i :: 1 <= i < |items| && f(items[i]) == Some(x)) by {
        forall x | exists i :: 1 <= i < |items| && f(items[i]) == Some(x)
          ensures exists i :: 0 <= i < |items| - 1 && f(items[1..][i]) == Some(x)
        {
          var i :| 1 <= i < |items| && f(items[i]) == Some(x);
          assert items[1..][i - 1] == items[i];
        }
      }
      match f(items[0])
      case Some(y) => [y] + rest
      case None => rest
  }

  /** One entry is kept exactly when `f` gives a result for it. */
  lemma FilterSomeSingle<A, B(!new)>(a: A, f: A -> Option<B>)
    ensures FilterSome([a], f) == (match f(a) case Some(y) => [y] case None => [])
  {
    assert [a][1..] == [];
  }

  /** Filtering works entry by entry: a list split in two filters as its halves, in order. */
  lemma {:induction false} FilterSomeDistributes<A, B(!new)>(a: seq<A>, b: seq<A>, f: A -> Option<B>)
    ensures FilterSome(a + b, f) == FilterSome(a, f) + FilterSome(b, f)
    decreases |a|
  {
    if a == [] {
      assert a + b == b;
    } else {
      assert (a + b)[0] == a[0];
      assert (a + b)[1..] == a[1..] + b;
      FilterSomeDistributes(a[1..], b, f);
    }
  }

  /** When every entry gives a result, the filtered list is exactly those results, in order. */
  lemma {:induction false} FilterSomeAll<A, B(!new)>(items: seq<A>, ys: seq<B>, f: A -> Option<B>)
    requires |items| == |ys|
    requires forall i :: 0 <= i < |items| ==> f(items[i]) == Some(ys[i])
    ensures FilterSome(items, f) == ys
  {
    if items != [] {
      assert f(items[0]) == Some(ys[0]);
      FilterSomeAll(items[1..], ys[1..], f);
      assert ys == [ys[0]] + ys[1..];
    }
  }
}

=== FILE: presets.dfy ===
/**
 * The preset list of the timer hook (features/breathing/hooks/useBreathingTimer.ts):
 * the built-in presets followed by the custom ones, lookup by name, and the
 * list updates behind `addPreset` and `removePreset`.
 */
module Presets {
  import opened Wrappers
  import opened Types
  import opened Utils

  /** A duration set as handed to `addPreset`, before clamping. */
  datatype RawDurations = RawDurations(inhale: real, hold1: real, exhale: real, hold2: real)

  /** `presets`: the built-ins, then the custom presets. */
  function Catalog(builtins: seq<Preset>, custom: seq<Preset>): (ps: seq<Preset>)
    ensures |ps| == |builtins| + |custom|
    ensures ps[..|builtins|] == builtins && ps[|builtins|..] == custom
  {
    builtins + custom
  }

  /** `presets.find(item => item.name === name)`: the first preset with that name. */
  function FindByName(ps: seq<Preset>, name: string): (r: Option<Preset>)
    ensures r.None? <==> forall i :: 0 <= i < |ps| ==> ps[i].name != name
    ensures r.Some? ==> exists i :: 0 <= i < |ps| && ps[i] == r.value
                                    && r.value.name == name
                                    && forall j :: 0 <= j < i ==> ps[j].name != name
  {
    if ps == [] then None
    else if ps[0].name == name then Some(ps[0])
    else
      var r := FindByName(ps[1..], name);
      FindByNameTail(ps, name, r);
      r
  }

  /** What the lookup in the tail says about the whole list, when the head does not match. */
  lemma FindByNameTail(ps: seq<Preset>, name: string, r: Option<Preset>)
    requires ps != [] && ps[0].name != name
    requires r.None? <==> forall i :: 0 <= i < |ps[1..]| ==> ps[1..][i].name != name
    requires r.Some? ==> exists i :: 0 <= i < |ps[1..]| && ps[1..][i] == r.value
                                     && r.value.name == name
                                     && forall j :: 0 <= j < i ==> ps[1..][j].name != name
    ensures r.None? <==> forall i :: 0 <= i < |ps| ==> ps[i].name != name
    ensures r.Some? ==> exists i :: 0 <= i < |ps| && ps[i] == r.value
                                    && r.value.name == name
                                    && forall j :: 0 <= j < i ==> ps[j].name != name
  {
    if r.Some? {
      var i :| 0 <= i < |ps[1..]| && ps[1..][i] == r.value && r.value.name == name
               && forall j :: 0 <= j < i ==> ps[1..][j].name != name;
      assert ps[i + 1] == r.value;
      forall j | 0 <= j < i + 1
        ensures ps[j].name != name
      {
        if j > 0 {
          assert ps[j] == ps[1..][j - 1];
        }
      }
    } else {
      forall i | 0 <= i < |ps|
        ensures ps[i].name != name
      {
        if i > 0 {
          assert ps[i] == ps[1..][i - 1];
        }
      }
    }
  }

  /** The four durations of `addPreset`, each through `clampSec`. */
  function NormalizeDurations(raw: RawDurations): Durations
  {
    Durations(ClampSec(raw.inhale), ClampSec(raw.hold1), ClampSec(raw.exhale), ClampSec(raw.hold2))
  }

  /** `prev.some(...)`: some custom preset already has this configuration. */
  predicate HasConfig(custom: seq<Preset>, d: Durations, repeatMinutes: nat)
  {
    exists i :: 0 <= i < |custom| && IsSamePresetConfig(custom[i], d, repeatMinutes)
  }

  /**
   * The custom list after `addPreset(label, durations, repeatMinutes)`;
   * `freshName` stands for the generated `custom_<timestamp>` name.
   */
  function AddCustomPreset(custom: seq<Preset>, labelText: string, raw: RawDurations,
                           rawRepeat: real, freshName: string): (r: seq<Preset>)
    ensures HasConfig(custom, NormalizeDurations(raw), ClampSec(rawRepeat)) ==> r == custom
    ensures !HasConfig(custom, NormalizeDurations(raw), ClampSec(rawRepeat)) ==>
      && |r| == |custom| + 1
      && r[..|custom|] == custom
      && r[|custom|].name == freshName
      && r[|custom|].labelKey.None? && r[|custom|].labelText == Some(labelText)
      && r[|custom|].durations == NormalizeDurations(raw)
      && r[|custom|].repeatMinutes == ClampSec(rawRepeat)
      && r[|custom|].isCustom
    ensures HasConfig(r, NormalizeDurations(raw), ClampSec(rawRepeat))
  {
    var d := NormalizeDurations(raw);
    var rep := ClampSec(rawRepeat);
    if HasConfig(custom, d, rep) then custom
    else
      var r := custom + [Preset(freshName, None, Some(labelText), d, rep, true)];
      assert IsSamePresetConfig(r[|custom|], d, rep);
      r
  }

  /** Adding the same configuration a second time leaves the list as the first call left it. */
  lemma AddPresetTwice(custom: seq<Preset>, labelText1: string, labelText2: string, raw: RawDurations,
                       rawRepeat: real, name1: string, name2: string)
    ensures var once := AddCustomPreset(custom, labelText1, raw, rawRepeat, name1);
            AddCustomPreset(once, labelText2, raw, rawRepeat, name2) == once
  {
  }

  /** `prev.filter(preset => preset.name !== name)`. */
  function RemoveCustomPreset(custom: seq<Preset>, name: string): (r: seq<Preset>)
    ensures |r| <= |custom|
    ensures forall p :: p in r <==> p in custom && p.name != name
    ensures (forall i :: 0 <= i < |custom| ==> custom[i].name != name) ==> r == custom
    ensures (exists i :: 0 <= i < |custom| && custom[i].name == name) ==> |r| < |custom|
  {
    if custom == [] then []
    else
      var rest := RemoveCustomPreset(custom[1..], name);
      assert forall p :: p in custom <==> p == custom[0] || p in custom[1..];
      if custom[0].name == name then rest
      else
        assert (exists i :: 0 <= i < |custom| && custom[i].name == name) ==>
               (exists i :: 0 <= i < |custom[1..]| && custom[1..][i].name == name) by {
          if exists i :: 0 <= i < |custom| && custom[i].name == name {
            var i :| 0 <= i < |custom| && custom[i].name == name;
            assert custom[1..][i - 1].name == name;
          }
        }
        [custom[0]] + rest
  }

  /** Removing a name twice is the same as removing it once. */
  lemma {:induction false} RemoveIdempotent(custom: seq<Preset>, name: string)
    ensures RemoveCustomPreset(RemoveCustomPreset(custom, name), name) == RemoveCustomPreset(custom, name)
  {
    var once := RemoveCustomPreset(custom, name);
    assert forall i :: 0 <= i < |once| ==> once[i].name != name by {
      forall i | 0 <= i < |once|
        ensures once[i].name != name
      {
        assert once[i] in once;
      }
    }
  }

  /**
   * Removal works entry by entry: it distributes over concatenation, so the
   * survivors keep their order.
   */
  lemma {:induction false} RemoveDistributes(a: seq<Preset>, b: seq<Preset>, name: string)
    ensures RemoveCustomPreset(a + b, name) == RemoveCustomPreset(a, name) + RemoveCustomPreset(b, name)
    decreases |a|
  {
    if a == [] {
      assert a + b == b;
    } else {
      var ab := a + b;
      assert ab[0] == a[0];
      assert ab[1..] == a[1..] + b;
      RemoveDistributes(a[1..], b, name);
      var restA := RemoveCustomPreset(a[1..], name);
      var restB := RemoveCustomPreset(b, name);
      if a[0].name == name {
        assert RemoveCustomPreset(ab, name) == restA + restB;
      } else {
        assert RemoveCustomPreset(ab, name) == [a[0]] + (restA + restB);
        assert RemoveCustomPreset(a, name) == [a[0]] + restA;
      }
    }
  }

  /** A single entry is dropped exactly when it carries the name. */
  lemma RemoveSingle(p: Preset, name: string)
    ensures RemoveCustomPreset([p], name) == if p.name == name then [] else [p]
  {
    assert [p][1..] == [];
  }

  /** Whatever happens to the custom list, the catalogue starts with the built-ins unchanged. */
  lemma BuiltinsFirst(builtins: seq<Preset>, custom: seq<Preset>, name: string, labelText: string,
                      raw: RawDurations, rawRepeat: real, freshName: string)
    ensures Catalog(builtins, RemoveCustomPreset(custom, name))[..|builtins|] == builtins
    ensures Catalog(builtins, AddCustomPreset(custom, labelText, raw, rawRepeat, freshName))[..|builtins|] == builtins
  {
  }
}

=== FILE: sanitize.dfy ===
/**
 * `sanitizeCustomPreset` and the loading step of the timer hook
 * (features/breathing/hooks/useBreathingTimer.ts): already-decoded JavaScript
 * values are checked and turned into custom presets.
 */
module Sanitize {
  import opened Wrappers
  import opened Lists
  import opened Types
  import opened Utils

  /** A JavaScript number. */
  datatype Num = Finite(value: real) | NaN | PosInfinity | NegInfinity

  /** A decoded JavaScript value; a missing property reads as `Undefined`. */
  datatype Value =
    | Undefined
    | Null
    | Bool(b: bool)
    | Number(n: Num)
    | Str(s: string)
    | Arr(items: seq<Value>)
    | Obj(fields: map<string, Value>)

  /** JavaScript truthiness, the test behind `!value`. */
  predicate Truthy(v: Value)
  {
    match v
    case Undefined => false
    case Null => false
    case Bool(b) => b
    case Number(n) => !n.NaN? && (n.Finite? ==> n.value != 0.0)
    case Str(s) => s != ""
    case Arr(_) => true
    case Obj(_) => true
  }

  /** `typeof v == "object"`: null, arrays and plain objects. */
  predicate TypeofObject(v: Value)
  {
    v.Null? || v.Arr? || v.Obj?
  }

  /** `!v || typeof v !== "object"` fails: a value whose properties can be read. */
  predicate IsRecord(v: Value)
  {
    Truthy(v) && TypeofObject(v)
  }

  /** Property read `v[key]`; arrays carry none of the keys this code asks for. */
  function Field(v: Value, key: string): Value
  {
    if v.Obj? && key in v.fields then v.fields[key] else Undefined
  }

  /**
   * `Number(v)`. Strings and arrays go through JavaScript's numeric-string
   * grammar (an array is first joined into a string), which `coerceText`
   * stands for; a plain object converts through "[object Object]" to NaN.
   */
  function ToNumber(v: Value, coerceText: Value -> Num): (n: Num)
    ensures v.Number? ==> n == v.n
    ensures v.Undefined? || v.Obj? ==> n.NaN?
  {
    match v
    case Undefined => NaN
    case Null => Finite(0.0)
    case Bool(b) => Finite(if b then 1.0 else 0.0)
    case Number(n) => n
    case Str(_) => coerceText(v)
    case Arr(_) => coerceText(v)
    case Obj(_) => NaN
  }

  /** The five numbers the sanitiser reads, in source order. */
  function NumericInputs(v: Value, coerceText: Value -> Num): seq<Num>
  {
    var d := Field(v, "durations");
    [ ToNumber(Field(d, "inhale"), coerceText), ToNumber(Field(d, "hold1"), coerceText),
      ToNumber(Field(d, "exhale"), coerceText), ToNumber(Field(d, "hold2"), coerceText),
      ToNumber(Field(v, "repeatMinutes"), coerceText) ]
  }

  predicate AllFinite(nums: seq<Num>)
  {
    forall i :: 0 <= i < |nums| ==> nums[i].Finite?
  }

  /** `sanitizeCustomPreset(value)`; `None` stands for the `null` result. */
  function SanitizeCustomPreset(value: Value, coerceText: Value -> Num): (r: Option<Preset>)
    ensures r.Some? <==>
      && (value.Arr? || value.Obj?)
      && Field(value, "name").Str?
      && (Field(value, "durations").Arr? || Field(value, "durations").Obj?)
      && AllFinite(NumericInputs(value, coerceText))
    ensures r.Some? ==>
      var nums := NumericInputs(value, coerceText);
      && r.value.name == Field(value, "name").s
      && r.value.isCustom
      && r.value.labelKey.None?
      && r.value.labelText == (if Field(value, "label").Str? then Some(Field(value, "label").s) else None)
      && r.value.durations == Durations(ClampSec(nums[0].value), ClampSec(nums[1].value),
                                        ClampSec(nums[2].value), ClampSec(nums[3].value))
      && r.value.repeatMinutes == ClampSec(nums[4].value)
  {
    if !IsRecord(value) then None
    else
      var name := Field(value, "name");
      if !name.Str? then None
      else
        var durations := Field(value, "durations");
        if !IsRecord(durations) then None
        else
          var inhale := ToNumber(Field(durations, "inhale"), coerceText);
          var hold1 := ToNumber(Field(durations, "hold1"), coerceText);
          var exhale := ToNumber(Field(durations, "exhale"), coerceText);
          var hold2 := ToNumber(Field(durations, "hold2"), coerceText);
          var repeatMinutes := ToNumber(Field(value, "repeatMinutes"), coerceText);
          assert NumericInputs(value, coerceText) == [inhale, hold1, exhale, hold2, repeatMinutes];
          if !inhale.Finite? || !hold1.Finite? || !exhale.Finite? || !hold2.Finite?
             || !repeatMinutes.Finite?
          then
            assert !AllFinite([inhale, hold1, exhale, hold2, repeatMinutes]) by {
              var k := if !inhale.Finite? then 0 else if !hold1.Finite? then 1
                       else if !exhale.Finite? then 2 else if !hold2.Finite? then 3 else 4;
              assert ![inhale, hold1, exhale, hold2, repeatMinutes][k].Finite?;
            }
            None
          else
            var labelValue := Field(value, "label");
            var labelText := if labelValue.Str? then Some(labelValue.s) else None;
            Some(Preset(
              name.s, None, labelText,
              Durations(ClampSec(inhale.value), ClampSec(hold1.value),
                        ClampSec(exhale.value), ClampSec(hold2.value)),
              ClampSec(repeatMinutes.value),
              true))
  }

  /**
   * The record `addPreset` and `removePreset` write for one custom preset:
   * name, label (left out when absent), the four durations and the repeat
   * length.
   */
  function Persisted(p: Preset): Value
  {
    var nat2 := (k: nat) => Number(Finite(k as real));
    var d := Obj(map[
      "inhale" := nat2(p.durations.inhale), "hold1" := nat2(p.durations.hold1),
      "exhale" := nat2(p.durations.exhale), "hold2" := nat2(p.durations.hold2)]);
    var base := map["name" := Str(p.name), "durations" := d, "repeatMinutes" := nat2(p.repeatMinutes)];
    Obj(if p.labelText.Some? then base["label" := Str(p.labelText.value)] else base)
  }

  /** The shape a stored custom preset has: marked custom, with no translation key. */
  predicate StoredShape(p: Preset)
  {
    p.isCustom && p.labelKey.None?
  }

  /** What is written for a custom preset is read back unchanged. */
  lemma SanitizePersisted(p: Preset, coerceText: Value -> Num)
    requires StoredShape(p)
    ensures SanitizeCustomPreset(Persisted(p), coerceText) == Some(p)
  {
    PersistedFields(p, coerceText);
    ClampSecOfNat(p.durations.inhale);
    ClampSecOfNat(p.durations.hold1);
    ClampSecOfNat(p.durations.exhale);
    ClampSecOfNat(p.durations.hold2);
    ClampSecOfNat(p.repeatMinutes);
  }

  /** The properties of a written record, as the sanitiser reads them. */
  lemma PersistedFields(p: Preset, coerceText: Value -> Num)
    ensures var v := Persisted(p);
      && v.Obj? && Field(v, "name") == Str(p.name) && Field(v, "durations").Obj?
      && (Field(v, "label").Str? <==> p.labelText.Some?)
      && (p.labelText.Some? ==> Field(v, "label").s == p.labelText.value)
      && NumericInputs(v, coerceText) ==
           [Finite(p.durations.inhale as real), Finite(p.durations.hold1 as real),
            Finite(p.durations.exhale as real), Finite(p.durations.hold2 as real),
            Finite(p.repeatMinutes as real)]
  {
  }

  /** `parsed.map(sanitizeCustomPreset).filter(Boolean)`: the entries that pass, in order. */
  function SanitizeAll(items: seq<Value>, coerceText: Value -> Num): (r: seq<Preset>)
    ensures |r| <= |items|
    ensures forall i :: 0 <= i < |r| ==> StoredShape(r[i])
    ensures (forall i :: 0 <= i < |items| ==> SanitizeCustomPreset(items[i], coerceText).Some?) ==> |r| == |items|
    ensures forall p :: p in r <==> exists i :: 0 <= i < |items| && SanitizeCustomPreset(items[i], coerceText) == Some(p)
  {
    var r := FilterSome(items, v => SanitizeCustomPreset(v, coerceText));
    assert forall i :: 0 <= i < |r| ==> StoredShape(r[i]) by {
      forall i | 0 <= i < |r|
        ensures StoredShape(r[i])
      {
        assert r[i] in r;
        var j :| 0 <= j < |items| && SanitizeCustomPreset(items[j], coerceText) == Some(r[i]);
      }
    }
    r
  }

  /** Sanitising one entry keeps it exactly when it passes. */
  lemma SanitizeAllSingle(v: Value, coerceText: Value -> Num)
    ensures SanitizeAll([v], coerceText) ==
      match SanitizeCustomPreset(v, coerceText)
      case Some(p) => [p]
      case None => []
  {
    FilterSomeSingle(v, v => SanitizeCustomPreset(v, coerceText));
  }

  /** Sanitising is entry by entry: a list split in two sanitises as its halves, in order. */
  lemma SanitizeAllDistributes(a: seq<Value>, b: seq<Value>, coerceText: Value -> Num)
    ensures SanitizeAll(a + b, coerceText) == SanitizeAll(a, coerceText) + SanitizeAll(b, coerceText)
  {
    FilterSomeDistributes(a, b, v => SanitizeCustomPreset(v, coerceText));
  }

  /**
   * Loading the stored list once it is decoded: a non-array leaves the current
   * list as it is (`None`); an array becomes the sanitised entries.
   */
  function LoadCustomPresets(parsed: Value, coerceText: Value -> Num): (r: Option<seq<Preset>>)
    ensures r.Some? <==> parsed.Arr?
    ensures r.Some? ==> forall i :: 0 <= i < |r.value| ==> StoredShape(r.value[i])
    ensures r.Some? ==> forall p :: p in r.value <==>
      exists i :: 0 <= i < |parsed.items| && SanitizeCustomPreset(parsed.items[i], coerceText) == Some(p)
  {
    if parsed.Arr? then Some(SanitizeAll(parsed.items, coerceText)) else None
  }

  /** The written list of custom presets. */
  function PersistedList(ps: seq<Preset>): (v: seq<Value>)
    ensures |v| == |ps|
  {
    seq(|ps|, i requires 0 <= i < |ps| => Persisted(ps[i]))
  }

  /** A stored custom list loads back as exactly the list that was written. */
  lemma {:induction false} LoadPersistedList(ps: seq<Preset>, coerceText: Value -> Num)
    requires forall i :: 0 <= i < |ps| ==> StoredShape(ps[i])
    ensures LoadCustomPresets(Arr(PersistedList(ps)), coerceText) == Some(ps)
  {
    SanitizeAllPersisted(ps, coerceText);
  }

  lemma SanitizeAllPersisted(ps: seq<Preset>, coerceText: Value -> Num)
    requires forall i :: 0 <= i < |ps| ==> StoredShape(ps[i])
    ensures SanitizeAll(PersistedList(ps), coerceText) == ps
  {
    var items := PersistedList(ps);
    forall i | 0 <= i < |ps|
      ensures SanitizeCustomPreset(items[i], coerceText) == Some(ps[i])
    {
      SanitizePersisted(ps[i], coerceText);
    }
    SanitizeAllAccepted(items, ps, coerceText);
  }

  /** When every entry passes, the sanitised list is exactly the entries' presets, in order. */
  lemma SanitizeAllAccepted(items: seq<Value>, ps: seq<Preset>, coerceText: Value -> Num)
    requires |items| == |ps|
    requires forall i :: 0 <= i < |items| ==> SanitizeCustomPreset(items[i], coerceText) == Some(ps[i])
    ensures SanitizeAll(items, coerceText) == ps
  {
    FilterSomeAll(items, ps, v => SanitizeCustomPreset(v, coerceText));
  }
}

=== FILE: scan.dfy ===
/**
 * The phase search inside the timer tick (features/breathing/hooks/useBreathingTimer.ts):
 * starting after the current phase, walk the cycle at most once around and
 * stop at the first phase whose duration is positive.
 */
module PhaseScan {
  import opened Types
  import opened Utils

  /**
   * The `for` loop of the tick: `i` counts the steps taken; a phase with a
   * positive duration ends the walk, and after four steps the walk gives up on
   * the phase it stands on.
   */
  function ScanPhases(d: Durations, np: Phase, i: nat): Phase
    decreases |PhaseOrder| - i
  {
    if i >= |PhaseOrder| then np
    else if d.At(np) > 0 then np
    else ScanPhases(d, NextPhase(np), i + 1)
  }

  /** How many `nextPhase` steps lead from `p` to `q`: 1 for the successor, 4 for `p` itself. */
  function Distance(p: Phase, q: Phase): (k: nat)
    ensures 1 <= k <= 4
  {
    if q == NextPhase(p) then 1
    else if q == NextPhase(NextPhase(p)) then 2
    else if q == NextPhase(NextPhase(NextPhase(p))) then 3
    else 4
  }

  /** The phases one to four steps ahead of each phase. */
  lemma AdvanceSmall(p: Phase)
    ensures Advance(p, 1) == NextPhase(p)
    ensures Advance(p, 2) == NextPhase(NextPhase(p))
    ensures Advance(p, 3) == NextPhase(NextPhase(NextPhase(p)))
    ensures Advance(p, 4) == p
    ensures Distance(p, NextPhase(p)) == 1
    ensures Distance(p, NextPhase(NextPhase(p))) == 2
    ensures Distance(p, NextPhase(NextPhase(NextPhase(p)))) == 3
    ensures Distance(p, p) == 4
  {
    NextPhaseCycle();
    assert Advance(p, 1) == NextPhase(p);
    assert Advance(p, 2) == NextPhase(Advance(p, 1));
    assert Advance(p, 3) == NextPhase(Advance(p, 2));
    assert Advance(p, 4) == NextPhase(Advance(p, 3));
    match p
    case Inhale =>
    case Hold1 =>
    case Exhale =>
    case Hold2 =>
  }

  /** Walking `k` steps, for `k` from 1 to 4, lands at distance `k`. */
  lemma DistanceOfAdvance(p: Phase, k: nat)
    requires 1 <= k <= 4
    ensures Distance(p, Advance(p, k)) == k
  {
    AdvanceSmall(p);
    if k == 1 {} else if k == 2 {} else if k == 3 {} else {}
  }

  /** Every phase is reached from `p` by walking its distance. */
  lemma AdvanceOfDistance(p: Phase, q: Phase)
    ensures Advance(p, Distance(p, q)) == q
  {
    AdvanceSmall(p);
    match q
    case Inhale =>
    case Hold1 =>
    case Exhale =>
    case Hold2 =>
  }

  /** When every phase at distance one to four is zero, so is the total. */
  lemma NothingRunnable(d: Durations, p: Phase)
    requires forall q :: Distance(p, q) < 4 ==> d.At(q) == 0
    requires d.At(p) == 0
    ensures d.Total() == 0
  {
    forall q
      ensures d.At(q) == 0
    {
      AdvanceOfDistance(p, q);
      AdvanceSmall(p);
    }
  }

  /**
   * The walk that stands `k` steps after `p`, having passed only zero-length
   * phases, ends at the nearest phase with a positive duration.
   */
  lemma {:induction false} ScanFindsNearest(d: Durations, p: Phase, k: nat)
    requires 1 <= k <= 4
    requires d.Total() > 0
    requires forall q :: Distance(p, q) < k ==> d.At(q) == 0
    ensures var r := ScanPhases(d, Advance(p, k), k - 1);
            && d.At(r) > 0
            && forall q :: Distance(p, q) < Distance(p, r) ==> d.At(q) == 0
    decreases 4 - k
  {
    var here := Advance(p, k);
    DistanceOfAdvance(p, k);
    if d.At(here) > 0 {
      assert ScanPhases(d, here, k - 1) == here;
    } else {
      if k == 4 {
        AdvanceSmall(p);
        NothingRunnable(d, p);
        assert false;
      }
      assert ScanPhases(d, here, k - 1) == ScanPhases(d, Advance(p, k + 1), k);
      forall q | Distance(p, q) < k + 1
        ensures d.At(q) == 0
      {
        AdvanceOfDistance(p, q);
      }
      ScanFindsNearest(d, p, k + 1);
    }
  }

  /**
   * The phase the tick moves to after `p` runs out: the nearest phase ahead
   * with a positive duration, `p` itself when the other three are zero.
   */
  function NextRunnable(d: Durations, p: Phase): (r: Phase)
    ensures d.Total() > 0 ==> d.At(r) > 0
    ensures d.Total() > 0 ==> forall q :: Distance(p, q) < Distance(p, r) ==> d.At(q) == 0
  {
    var r := ScanPhases(d, NextPhase(p), 0);
    if d.Total() > 0 then
      assert Advance(p, 1) == NextPhase(p);
      ScanFindsNearest(d, p, 1);
      r
    else r
  }

  /** The tick wraps back to the current phase exactly when it is the only one with a positive duration. */
  lemma NextRunnableWraps(d: Durations, p: Phase)
    requires d.Total() > 0
    ensures NextRunnable(d, p) == p <==> d.At(p) > 0 && forall q :: q != p ==> d.At(q) == 0
  {
    var r := NextRunnable(d, p);
    if r == p {
      forall q | q != p
        ensures d.At(q) == 0
      {
        assert Distance(p, q) < 4 by {
          AdvanceOfDistance(p, q);
          AdvanceFour(p, 4);
        }
      }
    } else if d.At(p) > 0 && forall q :: q != p ==> d.At(q) == 0 {
      assert d.At(r) > 0;
    }
  }
}

=== FILE: timer.dfy ===
/**
 * The state and transitions of `useBreathingTimer`
 * (features/breathing/hooks/useBreathingTimer.ts) with the React machinery
 * taken away: one immutable record, and one pure function per action, per
 * interval tick and per derived value. Every `*Ref` mirror equals the state it
 * mirrors, and the effects that react to a change run before the next action.
 */
module Timer {
  import opened Wrappers
  import opened Types
  import opened Utils
  import opened Presets
  import opened PhaseScan
  import Sanitize

  datatype TimerState = TimerState(
    draft: Durations,
    active: Durations,
    repeatMinutes: nat,
    phase: Phase,
    remainingMs: int,
    sessionRemainingMs: Option<int>,
    isRunning: bool,
    customPresets: seq<Preset>)

  /** The draft the hook starts with. */
  const DefaultDraft: Durations := Durations(4, 0, 6, 0)

  /** The repeat length the hook starts with, in minutes. */
  const DefaultRepeatMinutes: nat := 5

  /** `Math.max(0, durations[p] * 1000)`: the full length of a phase in milliseconds. */
  function PhaseMs(d: Durations, p: Phase): (ms: nat)
    ensures ms % 1000 == 0 && ms / 1000 == d.At(p)
    ensures ms % TickMs == 0
  {
    d.At(p) * 1000
  }

  /** `repeatMinutes > 0 ? repeatMinutes * 60 * 1000 : null`: the session a repeat length arms. */
  function SessionFor(repeatMinutes: nat): (r: Option<int>)
    ensures r.None? <==> repeatMinutes == 0
    ensures r.Some? ==> r.value > 0 && r.value % 60000 == 0 && r.value / 60000 == repeatMinutes
    ensures r.Some? ==> r.value % TickMs == 0
  {
    if repeatMinutes > 0 then Some(repeatMinutes * 60 * 1000) else None
  }

  /** The state right after the hook mounts, before stored presets arrive. */
  function Initial(): (s: TimerState)
    ensures !s.isRunning && s.phase == Inhale && s.active == s.draft
    ensures s.remainingMs == PhaseMs(s.draft, s.phase)
    ensures s.sessionRemainingMs == SessionFor(s.repeatMinutes)
    ensures s.customPresets == []
    ensures s.draft == Durations(4, 0, 6, 0) && s.repeatMinutes == 5
  {
    var draft := DefaultDraft;
    var repeatMinutes := DefaultRepeatMinutes;
    TimerState(draft, draft, repeatMinutes, Inhale, draft.inhale * 1000,
               if repeatMinutes > 0 then Some(repeatMinutes * 60 * 1000) else None, false, [])
  }

  /**
   * The two effects that react to a committed change. While idle, a changed
   * repeat length re-arms the session; and a written draft, a changed phase or
   * a changed remaining time re-syncs the remaining time to the draft length
   * of the current phase. While running both return at once.
   */
  function Settle(prev: TimerState, next: TimerState, draftWritten: bool): (s: TimerState)
    ensures next.isRunning ==> s == next
    ensures s == next.(remainingMs := s.remainingMs, sessionRemainingMs := s.sessionRemainingMs)
    ensures !next.isRunning && next.repeatMinutes != prev.repeatMinutes ==>
              s.sessionRemainingMs == SessionFor(next.repeatMinutes)
    ensures next.repeatMinutes == prev.repeatMinutes ==> s.sessionRemainingMs == next.sessionRemainingMs
    ensures !next.isRunning && (draftWritten || next.phase != prev.phase || next.remainingMs != prev.remainingMs) ==>
              s.remainingMs == PhaseMs(next.draft, next.phase)
    ensures !draftWritten && next.phase == prev.phase && next.remainingMs == prev.remainingMs ==>
              s.remainingMs == next.remainingMs
  {
    var afterRepeat :=
      if next.repeatMinutes != prev.repeatMinutes && !next.isRunning
      then next.(sessionRemainingMs := SessionFor(next.repeatMinutes))
      else next;
    if !next.isRunning && (draftWritten || next.phase != prev.phase || next.remainingMs != prev.remainingMs)
    then afterRepeat.(remainingMs := PhaseMs(next.draft, next.phase))
    else afterRepeat
  }

  /**
   * The render that an effect's own write causes fires nothing new: settling
   * the settled state once more, against the state it was settled from,
   * leaves it as it is.
   */
  lemma SettleSettles(prev: TimerState, next: TimerState, draftWritten: bool)
    ensures var s := Settle(prev, next, draftWritten);
            Settle(next, s, false) == s
  {
    var s := Settle(prev, next, draftWritten);
    if !next.isRunning && s.remainingMs != next.remainingMs {
      assert s.remainingMs == PhaseMs(next.draft, next.phase);
    }
  }

  /** `reset`: stop, take the draft, and go back to the start of `inhale` with a fresh session. */
  function Reset(s: TimerState): (r: TimerState)
    ensures !r.isRunning
    ensures r.active == s.draft && r.phase == Inhale
    ensures r.remainingMs == s.draft.inhale * 1000
    ensures r.sessionRemainingMs == SessionFor(s.repeatMinutes)
    ensures r.draft == s.draft && r.repeatMinutes == s.repeatMinutes && r.customPresets == s.customPresets
  {
    var next := s.(isRunning := false, active := s.draft, phase := Inhale,
                   remainingMs := PhaseMs(s.draft, Inhale),
                   sessionRemainingMs := SessionFor(s.repeatMinutes));
    Settle(s, next, false)
  }

  /**
   * `start`: ignored while running; otherwise take the draft, reload the
   * CURRENT phase from it, re-arm the session and run. There is no check that
   * the draft has a phase to run.
   */
  function Start(s: TimerState): (r: TimerState)
    ensures s.isRunning ==> r == s
    ensures !s.isRunning ==>
      && r.isRunning
      && r.active == s.draft
      && r.phase == s.phase
      && r.remainingMs == PhaseMs(s.draft, s.phase)
      && r.sessionRemainingMs == SessionFor(s.repeatMinutes)
      && r.draft == s.draft && r.repeatMinutes == s.repeatMinutes && r.customPresets == s.customPresets
  {
    if s.isRunning then s
    else
      var next := s.(active := s.draft, remainingMs := PhaseMs(s.draft, s.phase),
                     sessionRemainingMs := SessionFor(s.repeatMinutes), isRunning := true);
      Settle(s, next, false)
  }

  /** `pause`: stop the clock; nothing else moves. */
  function Pause(s: TimerState): (r: TimerState)
    ensures r == s.(isRunning := false)
  {
    Settle(s, s.(isRunning := false), false)
  }

  /** `toggleRun`: pause when running, start otherwise. */
  function ToggleRun(s: TimerState): (r: TimerState)
    ensures r.isRunning == !s.isRunning
    ensures s.isRunning ==> r == s.(isRunning := false)
    ensures !s.isRunning ==> r.active == s.draft && r.phase == s.phase
                             && r.remainingMs == PhaseMs(s.draft, s.phase)
                             && r.sessionRemainingMs == SessionFor(s.repeatMinutes)
    ensures r.draft == s.draft && r.repeatMinutes == s.repeatMinutes && r.customPresets == s.customPresets
  {
    if s.isRunning then Pause(s) else Start(s)
  }

  /** The session a tick leaves: `TICK_MS` less, or still none. */
  function TickedSession(s: TimerState): Option<int>
  {
    if s.sessionRemainingMs.Some? then Some(s.sessionRemainingMs.value - TickMs) else None
  }

  /** The tick ends the session. */
  predicate SessionExpires(s: TimerState)
  {
    s.sessionRemainingMs.Some? && s.sessionRemainingMs.value - TickMs <= 0
  }

  /**
   * One firing of the interval. The session counts down first and ends the
   * run when it reaches zero. Otherwise a finished phase re-reads the draft
   * and moves to the nearest phase ahead with a positive duration, or stops
   * when the draft has none; an unfinished phase loses `TICK_MS`.
   */
  function Tick(s: TimerState): (r: TimerState)
    requires s.isRunning
    ensures s.sessionRemainingMs.None? ==> r.sessionRemainingMs.None?
    ensures s.sessionRemainingMs.Some? ==> r.sessionRemainingMs == Some(s.sessionRemainingMs.value - TickMs)
    ensures r.draft == s.draft && r.repeatMinutes == s.repeatMinutes && r.customPresets == s.customPresets
    ensures SessionExpires(s) ==>
      && !r.isRunning && r.phase == s.phase && r.active == s.active
      && r.remainingMs == (if s.remainingMs == 0 then 0 else PhaseMs(s.draft, s.phase))
    ensures !SessionExpires(s) && s.remainingMs <= 0 ==>
      && r.active == s.draft
      && (s.draft.Total() == 0 ==> !r.isRunning && r.phase == s.phase && r.remainingMs == s.remainingMs)
      && (s.draft.Total() > 0 ==>
            && r.isRunning
            && r.phase == NextRunnable(s.draft, s.phase)
            && s.draft.At(r.phase) > 0
            && r.remainingMs == PhaseMs(s.draft, r.phase))
    ensures !SessionExpires(s) && s.remainingMs > 0 ==>
      r == s.(sessionRemainingMs := r.sessionRemainingMs, remainingMs := s.remainingMs - TickMs)
  {
    var s1 := s.(sessionRemainingMs := TickedSession(s));
    if SessionExpires(s) then
      Settle(s, s1.(isRunning := false, remainingMs := 0), false)
    else if s.remainingMs <= 0 then
      var nextActive := s.draft;
      var np := NextRunnable(nextActive, s.phase);
      if nextActive.Total() <= 0 then
        Settle(s, s1.(active := nextActive, isRunning := false), false)
      else
        Settle(s, s1.(active := nextActive, phase := np, remainingMs := PhaseMs(nextActive, np)), false)
    else
      Settle(s, s1.(remainingMs := s.remainingMs - TickMs), false)
  }

  /** `setDraftField(key, v)`: store `clampSec(v)` in one field of the draft. */
  function SetDraftField(s: TimerState, key: Phase, v: real): (r: TimerState)
    ensures r.draft.At(key) == ClampSec(v)
    ensures forall q :: q != key ==> r.draft.At(q) == s.draft.At(q)
    ensures !s.isRunning ==> r.remainingMs == PhaseMs(r.draft, s.phase)
    ensures s.isRunning ==> r.remainingMs == s.remainingMs
    ensures r == s.(draft := r.draft, remainingMs := r.remainingMs)
  {
    Settle(s, s.(draft := s.draft.With(key, ClampSec(v))), true)
  }

  /** `setRepeatMinutes(m)`: the raw state setter, and the session effect it triggers. */
  function SetRepeatMinutes(s: TimerState, m: nat): (r: TimerState)
    ensures r.repeatMinutes == m
    ensures !s.isRunning && m != s.repeatMinutes ==> r.sessionRemainingMs == SessionFor(m)
    ensures s.isRunning || m == s.repeatMinutes ==> r.sessionRemainingMs == s.sessionRemainingMs
    ensures r == s.(repeatMinutes := m, sessionRemainingMs := r.sessionRemainingMs)
  {
    Settle(s, s.(repeatMinutes := m), false)
  }

  /** `applyPreset(name)`: copy the first preset of that name into the draft and the repeat length. */
  function ApplyPreset(builtins: seq<Preset>, s: TimerState, name: string): (r: TimerState)
    ensures (forall i :: 0 <= i < |Catalog(builtins, s.customPresets)| ==>
               Catalog(builtins, s.customPresets)[i].name != name) ==> r == s
    ensures FindByName(Catalog(builtins, s.customPresets), name).Some? ==>
      var p := FindByName(Catalog(builtins, s.customPresets), name).value;
      && p.name == name
      && r.draft == p.durations && r.repeatMinutes == p.repeatMinutes
      && r.phase == s.phase && r.active == s.active && r.isRunning == s.isRunning
      && r.customPresets == s.customPresets
      && (!s.isRunning ==> r.remainingMs == PhaseMs(p.durations, s.phase))
      && (s.isRunning ==> r.remainingMs == s.remainingMs && r.sessionRemainingMs == s.sessionRemainingMs)
      && (!s.isRunning && p.repeatMinutes != s.repeatMinutes ==> r.sessionRemainingMs == SessionFor(p.repeatMinutes))
      && (p.repeatMinutes == s.repeatMinutes ==> r.sessionRemainingMs == s.sessionRemainingMs)
  {
    match FindByName(Catalog(builtins, s.customPresets), name)
    case None => s
    case Some(p) => Settle(s, s.(draft := p.durations, repeatMinutes := p.repeatMinutes), true)
  }

  /** `addPreset`: the custom list gains the configuration unless a custom preset already has it. */
  function AddPreset(s: TimerState, labelText: string, raw: RawDurations, rawRepeat: real,
                     freshName: string): (r: TimerState)
    ensures r == s.(customPresets := r.customPresets)
    ensures HasConfig(r.customPresets, NormalizeDurations(raw), ClampSec(rawRepeat))
    ensures |r.customPresets| <= |s.customPresets| + 1
    ensures |s.customPresets| <= |r.customPresets| && r.customPresets[..|s.customPresets|] == s.customPresets
    ensures HasConfig(s.customPresets, NormalizeDurations(raw), ClampSec(rawRepeat)) ==> r == s
    ensures !HasConfig(s.customPresets, NormalizeDurations(raw), ClampSec(rawRepeat)) ==>
      && |r.customPresets| == |s.customPresets| + 1
      && r.customPresets[|s.customPresets|] ==
           Preset(freshName, None, Some(labelText), NormalizeDurations(raw), ClampSec(rawRepeat), true)
  {
    s.(customPresets := AddCustomPreset(s.customPresets, labelText, raw, rawRepeat, freshName))
  }

  /** `removePreset`: drop the custom presets of that name. */
  function RemovePreset(s: TimerState, name: string): (r: TimerState)
    ensures r == s.(customPresets := r.customPresets)
    ensures forall p :: p in r.customPresets <==> p in s.customPresets && p.name != name
    ensures r.customPresets == RemoveCustomPreset(s.customPresets, name)
    ensures (forall i :: 0 <= i < |s.customPresets| ==> s.customPresets[i].name != name) ==> r == s
  {
    s.(customPresets := RemoveCustomPreset(s.customPresets, name))
  }

  /** The mount-time load, once the stored text is decoded: an array replaces the custom list. */
  function LoadPresets(s: TimerState, parsed: Sanitize.Value, coerceText: Sanitize.Value -> Sanitize.Num): (r: TimerState)
    ensures r == s.(customPresets := r.customPresets)
    ensures !parsed.Arr? ==> r == s
    ensures parsed.Arr? ==> r.customPresets == Sanitize.SanitizeAll(parsed.items, coerceText)
    ensures parsed.Arr? ==> forall p :: p in r.customPresets <==>
      exists i :: 0 <= i < |parsed.items| && Sanitize.SanitizeCustomPreset(parsed.items[i], coerceText) == Some(p)
  {
    match Sanitize.LoadCustomPresets(parsed, coerceText)
    case Some(list) => s.(customPresets := list)
    case None => s
  }

  /** `presets`: built-ins first, then the custom list. */
  function PresetList(builtins: seq<Preset>, s: TimerState): (ps: seq<Preset>)
    ensures |ps| == |builtins| + |s.customPresets|
    ensures ps[..|builtins|] == builtins && ps[|builtins|..] == s.customPresets
  {
    Catalog(builtins, s.customPresets)
  }

  /** `currentPhaseDurationMs`: the active length of the current phase. */
  function CurrentPhaseDurationMs(s: TimerState): nat
  {
    PhaseMs(s.active, s.phase)
  }

  function Min(a: real, b: real): real { if a <= b then a else b }

  function Max(a: real, b: real): real { if a >= b then a else b }

  /** `progress`: the elapsed share of the current phase, clamped to [0, 1]; 1 for an empty phase. */
  function Progress(s: TimerState): (r: real)
    ensures 0.0 <= r <= 1.0
    ensures CurrentPhaseDurationMs(s) == 0 ==> r == 1.0
    ensures CurrentPhaseDurationMs(s) > 0 && 0 <= s.remainingMs <= CurrentPhaseDurationMs(s) ==>
      r * CurrentPhaseDurationMs(s) as real == (CurrentPhaseDurationMs(s) - s.remainingMs) as real
    ensures CurrentPhaseDurationMs(s) > 0 && s.remainingMs >= CurrentPhaseDurationMs(s) ==> r == 0.0
  {
    var total := CurrentPhaseDurationMs(s);
    if total <= 0 then 1.0
    else
      var elapsed := total - s.remainingMs;
      Min(1.0, Max(0.0, elapsed as real / total as real))
  }

  /** `remainingSecDisplay`: `Math.ceil(remainingMs / 1000)`. */
  function RemainingSecDisplay(s: TimerState): (r: int)
    ensures (r - 1) * 1000 < s.remainingMs <= r * 1000
  {
    -((-s.remainingMs) / 1000)
  }

  /** `totalActiveSec`: the length of one cycle of the active configuration. */
  function TotalActiveSec(s: TimerState): (t: nat)
    ensures t == 0 <==> forall p :: s.active.At(p) == 0
    ensures t == s.active.At(Inhale) + s.active.At(Hold1) + s.active.At(Exhale) + s.active.At(Hold2)
  {
    s.active.inhale + s.active.hold1 + s.active.exhale + s.active.hold2
  }
}

=== FILE: timer_properties.dfy ===
/**
 * Properties of the timer as a whole: an invariant that every reachable state
 * keeps, how many ticks a phase and a session last, and the behaviour of a
 * few concrete configurations.
 */
module TimerProperties {
  import opened Wrappers
  import opened Types
  import opened Utils
  import opened Presets
  import opened PhaseScan
  import opened Timer
  import Sanitize

  /** Everything the user and the interval can do to the timer. */
  datatype Action =
    | ToggleRunPressed
    | ResetPressed
    | IntervalFired
    | DraftFieldSet(key: Phase, v: real)
    | RepeatMinutesSet(m: nat)
    | PresetApplied(name: string)
    | PresetAdded(labelText: string, raw: RawDurations, rawRepeat: real, freshName: string)
    | PresetRemoved(name: string)
    | PresetsLoaded(parsed: Sanitize.Value)

  /** One action. The interval only exists while running, so an idle firing changes nothing. */
  function Step(builtins: seq<Preset>, coerceText: Sanitize.Value -> Sanitize.Num,
                s: TimerState, a: Action): TimerState
  {
    match a
    case ToggleRunPressed => ToggleRun(s)
    case ResetPressed => Reset(s)
    case IntervalFired => if s.isRunning then Tick(s) else s
    case DraftFieldSet(key, v) => SetDraftField(s, key, v)
    case RepeatMinutesSet(m) => SetRepeatMinutes(s, m)
    case PresetApplied(name) => ApplyPreset(builtins, s, name)
    case PresetAdded(labelText, raw, rawRepeat, freshName) => AddPreset(s, labelText, raw, rawRepeat, freshName)
    case PresetRemoved(name) => RemovePreset(s, name)
    case PresetsLoaded(parsed) => LoadPresets(s, parsed, coerceText)
  }

  /** A sequence of actions, first to last. */
  function Run(builtins: seq<Preset>, coerceText: Sanitize.Value -> Sanitize.Num,
               s: TimerState, actions: seq<Action>): TimerState
    decreases |actions|
  {
    if actions == [] then s
    else Run(builtins, coerceText, Step(builtins, coerceText, s, actions[0]), actions[1..])
  }

  /**
   * What holds in every reachable state: the phase time is a non-negative
   * multiple of `TICK_MS`, so is the session time, a running session has time
   * left, and every custom preset is marked custom.
   */
  predicate Inv(s: TimerState)
  {
    && s.remainingMs >= 0 && s.remainingMs % TickMs == 0
    && (s.sessionRemainingMs.Some? ==>
          s.sessionRemainingMs.value >= 0 && s.sessionRemainingMs.value % TickMs == 0)
    && (s.isRunning && s.sessionRemainingMs.Some? ==> s.sessionRemainingMs.value > 0)
    && forall i :: 0 <= i < |s.customPresets| ==> s.customPresets[i].isCustom
  }

  lemma InitialInv()
    ensures Inv(Initial())
  {
  }

  /** A tick keeps the invariant. */
  lemma TickInv(s: TimerState)
    requires s.isRunning && Inv(s)
    ensures Inv(Tick(s))
  {
    if SessionExpires(s) {
      TickInvExpired(s);
    } else if s.remainingMs <= 0 {
      TickInvPhaseEnd(s);
    } else {
      TickInvCountdown(s);
    }
  }

  lemma TickInvSession(s: TimerState)
    requires s.isRunning && Inv(s)
    ensures Tick(s).sessionRemainingMs.Some? ==> Tick(s).sessionRemainingMs.value % TickMs == 0
  {
    if s.sessionRemainingMs.Some? {
      var x := s.sessionRemainingMs.value;
      assert (x - TickMs) % TickMs == 0;
    }
  }

  lemma TickInvExpired(s: TimerState)
    requires s.isRunning && Inv(s) && SessionExpires(s)
    ensures Inv(Tick(s))
  {
    TickInvSession(s);
    var r := Tick(s);
    assert r.remainingMs == 0 || r.remainingMs == PhaseMs(s.draft, s.phase);
  }

  lemma TickInvPhaseEnd(s: TimerState)
    requires s.isRunning && Inv(s) && !SessionExpires(s) && s.remainingMs <= 0
    ensures Inv(Tick(s))
  {
    TickInvSession(s);
    var r := Tick(s);
    assert r.remainingMs == s.remainingMs || r.remainingMs == PhaseMs(s.draft, r.phase);
  }

  lemma TickInvCountdown(s: TimerState)
    requires s.isRunning && Inv(s) && !SessionExpires(s) && s.remainingMs > 0
    ensures Inv(Tick(s))
  {
    TickInvSession(s);
    var r := Tick(s);
    assert r.remainingMs == s.remainingMs - TickMs;
  }

  /** Every action keeps the invariant. */
  lemma StepInv(builtins: seq<Preset>, coerceText: Sanitize.Value -> Sanitize.Num, s: TimerState, a: Action)
    requires Inv(s)
    ensures Inv(Step(builtins, coerceText, s, a))
  {
    var r := Step(builtins, coerceText, s, a);
    match a
    case IntervalFired =>
      if s.isRunning {
        TickInv(s);
      }
    case ToggleRunPressed =>
    case ResetPressed =>
    case DraftFieldSet(key, v) =>
    case RepeatMinutesSet(m) =>
    case PresetApplied(name) =>
      var found := FindByName(Catalog(builtins, s.customPresets), name);
      if found.Some? {
        assert !s.isRunning ==> r.remainingMs == PhaseMs(found.value.durations, s.phase);
      }
    case PresetAdded(labelText, raw, rawRepeat, freshName) =>
      assert r.customPresets == AddCustomPreset(s.customPresets, labelText, raw, rawRepeat, freshName);
    case PresetRemoved(name) =>
      forall i | 0 <= i < |r.customPresets|
        ensures r.customPresets[i].isCustom
      {
        assert r.customPresets[i] in s.customPresets;
      }
    case PresetsLoaded(parsed) =>
  }

  /** Any run of actions keeps the invariant. */
  lemma {:induction false} RunInv(builtins: seq<Preset>, coerceText: Sanitize.Value -> Sanitize.Num,
                                  s: TimerState, actions: seq<Action>)
    requires Inv(s)
    ensures Inv(Run(builtins, coerceText, s, actions))
    decreases |actions|
  {
    if actions != [] {
      StepInv(builtins, coerceText, s, actions[0]);
      RunInv(builtins, coerceText, Step(builtins, coerceText, s, actions[0]), actions[1..]);
    }
  }

  /**
   * In every state reachable from mounting, the phase time is a non-negative
   * multiple of `TICK_MS`, the session time too, and the progress lies in [0, 1].
   */
  lemma Reachable(builtins: seq<Preset>, coerceText: Sanitize.Value -> Sanitize.Num, actions: seq<Action>)
    ensures var s := Run(builtins, coerceText, Initial(), actions);
            && s.remainingMs >= 0 && s.remainingMs % TickMs == 0
            && (s.sessionRemainingMs.Some? ==>
                  s.sessionRemainingMs.value >= 0 && s.sessionRemainingMs.value % TickMs == 0)
            && 0.0 <= Progress(s) <= 1.0
  {
    InitialInv();
    RunInv(builtins, coerceText, Initial(), actions);
  }

  /** `n` firings of the interval, stopping early once the timer stops. */
  function Ticks(s: TimerState, n: nat): TimerState
    decreases n
  {
    if n == 0 || !s.isRunning then s else Ticks(Tick(s), n - 1)
  }

  /**
   * Without a session, a phase with `k` ticks left counts down to zero in
   * exactly `k` ticks, changing nothing else.
   */
  lemma {:induction false} PhaseCountdown(s: TimerState, k: nat)
    requires s.isRunning && s.sessionRemainingMs.None?
    requires s.remainingMs == k * TickMs
    ensures Ticks(s, k) == s.(remainingMs := 0)
    decreases k
  {
    if k > 0 {
      var t := Tick(s);
      assert t == s.(remainingMs := (k - 1) * TickMs);
      PhaseCountdown(t, k - 1);
    }
  }

  /**
   * With phases of positive total length, a running session with `k` ticks
   * left runs for `k - 1` more ticks and stops on the `k`-th, its clock at zero.
   */
  lemma {:induction false} SessionRunsOut(s: TimerState, k: nat)
    requires s.isRunning && s.draft.Total() > 0
    requires k >= 1 && s.sessionRemainingMs == Some(k * TickMs)
    ensures Ticks(s, k - 1).isRunning && Ticks(s, k - 1).sessionRemainingMs == Some(TickMs)
    ensures !Ticks(s, k).isRunning && Ticks(s, k).sessionRemainingMs == Some(0)
    decreases k
  {
    var t := Tick(s);
    if k == 1 {
      assert Ticks(s, 1) == Ticks(t, 0);
    } else {
      assert !SessionExpires(s);
      assert t.isRunning && t.sessionRemainingMs == Some((k - 1) * TickMs);
      SessionRunsOut(t, k - 1);
      assert Ticks(s, k) == Ticks(t, k - 1);
      assert Ticks(s, k - 1) == Ticks(t, k - 2);
    }
  }

  /**
   * Inhale 4, hold 0, exhale 6, hold 0 and no session limit: after Reset and
   * Start the inhale counts 4000 ms down in 40 ticks, and the next tick skips
   * the empty hold and starts a 6000 ms exhale.
   */
  lemma SkipsEmptyHold(s: TimerState)
    requires s.draft == Durations(4, 0, 6, 0) && s.repeatMinutes == 0
    ensures var r := Start(Reset(s));
            && r.phase == Inhale && r.remainingMs == 4000 && r.sessionRemainingMs.None?
            && Ticks(r, 40).isRunning
            && Ticks(r, 40).phase == Inhale && Ticks(r, 40).remainingMs == 0
            && Tick(Ticks(r, 40)).phase == Exhale
            && Tick(Ticks(r, 40)).remainingMs == 6000
            && Tick(Ticks(r, 40)).sessionRemainingMs.None?
  {
    var r := Start(Reset(s));
    PhaseCountdown(r, 40);
    var d := s.draft;
    var np := NextRunnable(d, Inhale);
    AdvanceSmall(Inhale);
    NextPhaseCycle();
    assert Distance(Inhale, Exhale) == 2 && Distance(Inhale, Inhale) == 4;
    assert np == Exhale;
  }

  /**
   * Four seconds per phase and a one-minute session: the session starts at
   * 60000 ms, the timer is still running after 599 ticks and has stopped after
   * 600, wherever in the cycle it is.
   */
  lemma OneMinuteSession(s: TimerState)
    requires s.draft == Durations(4, 4, 4, 4) && s.repeatMinutes == 1
    ensures var r := Start(Reset(s));
            && r.sessionRemainingMs == Some(60000)
            && Ticks(r, 599).isRunning
            && !Ticks(r, 600).isRunning && Ticks(r, 600).sessionRemainingMs == Some(0)
  {
    var r := Start(Reset(s));
    SessionRunsOut(r, 600);
  }

  /**
   * Start has no guard against an all-zero draft (only the button, disabled on
   * the ACTIVE total, stands in the way): such a start runs, and its first
   * tick takes the empty draft and stops where it is.
   */
  lemma ZeroDraftStopsOnFirstTick(s: TimerState)
    requires !s.isRunning && s.draft == Durations(0, 0, 0, 0)
    ensures Start(s).isRunning
    ensures var r := Tick(Start(s));
            !r.isRunning && r.phase == s.phase && r.active == s.draft && TotalActiveSec(r) == 0
  {
    var t := Start(s);
    assert t.remainingMs == 0;
  }

  /** Pausing and starting again reloads the whole current phase from the draft: nothing resumes mid-phase. */
  lemma PauseThenStartRestartsPhase(s: TimerState)
    requires s.isRunning
    ensures var r := ToggleRun(ToggleRun(s));
            && r.isRunning && r.phase == s.phase && r.active == s.draft
            && r.remainingMs == PhaseMs(s.draft, s.phase)
            && r.sessionRemainingMs == SessionFor(s.repeatMinutes)
  {
  }

  /**
   * While idle and in step with the draft, editing the current phase updates
   * the remaining time and editing another phase leaves it alone; after a
   * pause mid-phase, any edit reloads the current phase.
   */
  lemma IdleDraftEdits(s: TimerState, key: Phase, v: real)
    requires !s.isRunning
    ensures key == s.phase ==> SetDraftField(s, key, v).remainingMs == ClampSec(v) * 1000
    ensures key != s.phase && s.remainingMs == PhaseMs(s.draft, s.phase) ==>
            SetDraftField(s, key, v).remainingMs == s.remainingMs
    ensures key != s.phase ==> SetDraftField(s, key, v).remainingMs == PhaseMs(s.draft, s.phase)
  {
  }

  /** Reset twice is reset once. */
  lemma ResetIdempotent(s: TimerState)
    ensures Reset(Reset(s)) == Reset(s)
  {
  }
}

=== FILE: types.dfy ===
/**
 * The record types of the breathing feature and its two constants: the phase
 * cycle and the interval of the timer.
 */
module Types {
  import opened Wrappers

  /** The four stages of one breath, in the order of the cycle. */
  datatype Phase = Inhale | Hold1 | Exhale | Hold2

  /**
   * Whole seconds spent in each phase. The source types the fields as plain
   * numbers; every writer of a duration set goes through `clampSec` or comes
   * from the built-in preset data, so they are natural numbers here.
   */
  datatype Durations = Durations(inhale: nat, hold1: nat, exhale: nat, hold2: nat)
  {
    /** `durations[p]`: the duration of one phase. */
    function At(p: Phase): nat
    {
      match p
      case Inhale => inhale
      case Hold1 => hold1
      case Exhale => exhale
      case Hold2 => hold2
    }

    /** `{ ...durations, [p]: v }`: one field replaced. */
    function With(p: Phase, v: nat): (d: Durations)
      ensures d.At(p) == v
      ensures forall q :: q != p ==> d.At(q) == At(q)
    {
      match p
      case Inhale => this.(inhale := v)
      case Hold1 => this.(hold1 := v)
      case Exhale => this.(exhale := v)
      case Hold2 => this.(hold2 := v)
    }

    /** Sum of the four durations, in seconds. */
    function Total(): (t: nat)
      ensures t == 0 <==> forall p :: At(p) == 0
    {
      assert At(Inhale) == inhale && At(Hold1) == hold1 && At(Exhale) == exhale && At(Hold2) == hold2;
      inhale + hold1 + exhale + hold2
    }
  }

  /**
   * A named configuration (`label` of the source is `labelText` here, `label`
   * being a Dafny keyword). `isFavorite` of the source record is never read or
   * written by the timer and is not carried.
   */
  datatype Preset = Preset(
    name: string,
    labelKey: Option<string>,
    labelText: Option<string>,
    durations: Durations,
    repeatMinutes: nat,
    isCustom: bool)

  /** `PHASE_ORDER`: the fixed cycle of phases. */
  const PhaseOrder: seq<Phase> := [Inhale, Hold1, Exhale, Hold2]

  /** `TICK_MS`: the period of the timer interval, in milliseconds. */
  const TickMs: int := 100
}

=== FILE: utils.dfy ===
/**
 * Duration and phase helpers of features/breathing/lib/utils.ts.
 */
module Utils {
  import opened Types

  /** `Math.round` on a finite number: the nearest integer, halves going up. */
  function Round(x: real): (r: int)
    ensures r as real - 0.5 <= x < r as real + 0.5
  {
    (x + 0.5).Floor
  }

  /** `clampSec`: `Math.max(0, Math.round(n))` for a finite `n`. */
  function ClampSec(n: real): (r: nat)
    ensures r == 0 <==> n < 0.5
    ensures r > 0 ==> r as real - 0.5 <= n < r as real + 0.5
  {
    var k := Round(n);
    if k > 0 then k else 0
  }

  /** A non-negative integer passes through `clampSec` unchanged. */
  lemma ClampSecOfNat(k: nat)
    ensures ClampSec(k as real) == k
  {
    assert (k as real + 0.5).Floor == k;
  }

  /** `clampSec` is idempotent. */
  lemma ClampSecIdempotent(n: real)
    ensures ClampSec(ClampSec(n) as real) == ClampSec(n)
  {
    ClampSecOfNat(ClampSec(n));
  }

  /** Position of a phase in `PHASE_ORDER` (`PHASE_ORDER.indexOf`). */
  function IndexOf(p: Phase): (i: nat)
    ensures i < |PhaseOrder| && PhaseOrder[i] == p
  {
    match p
    case Inhale => 0
    case Hold1 => 1
    case Exhale => 2
    case Hold2 => 3
  }

  /** `nextPhase`: the successor in `PHASE_ORDER`, wrapping from the last to the first. */
  function NextPhase(current: Phase): (r: Phase)
    ensures r != current
    ensures IndexOf(r) == (IndexOf(current) + 1) % |PhaseOrder|
  {
    PhaseOrder[(IndexOf(current) + 1) % |PhaseOrder|]
  }

  /** `k` applications of `nextPhase`. */
  function Advance(p: Phase, k: nat): Phase
  {
    if k == 0 then p else NextPhase(Advance(p, k - 1))
  }

  /** The cycle is inhale, hold1, exhale, hold2 and back to inhale. */
  lemma NextPhaseCycle()
    ensures NextPhase(Inhale) == Hold1
    ensures NextPhase(Hold1) == Exhale
    ensures NextPhase(Exhale) == Hold2
    ensures NextPhase(Hold2) == Inhale
  {
  }

  /** Index arithmetic of `k` steps: the phase `k` steps ahead sits `k` places further, modulo four. */
  lemma {:induction false} AdvanceIndex(p: Phase, k: nat)
    ensures IndexOf(Advance(p, k)) == (IndexOf(p) + k) % |PhaseOrder|
  {
    if k > 0 {
      AdvanceIndex(p, k - 1);
    }
  }

  /** Four applications of `nextPhase` return the start, and fewer never do. */
  lemma AdvanceFour(p: Phase, k: nat)
    ensures Advance(p, k) == p <==> k % 4 == 0
  {
    AdvanceIndex(p, k);
    if Advance(p, k) == p {
      assert IndexOf(p) == (IndexOf(p) + k) % 4;
    }
    if k % 4 == 0 {
      assert IndexOf(Advance(p, k)) == IndexOf(p);
    }
  }

  /** `isSameDurations`: field-wise equality of two duration sets. */
  function IsSameDurations(a: Durations, b: Durations): (r: bool)
    ensures r <==> forall p :: a.At(p) == b.At(p)
    ensures r <==> a == b
  {
    assert a.At(Inhale) == a.inhale && a.At(Hold1) == a.hold1 && a.At(Exhale) == a.exhale && a.At(Hold2) == a.hold2;
    assert b.At(Inhale) == b.inhale && b.At(Hold1) == b.hold1 && b.At(Exhale) == b.exhale && b.At(Hold2) == b.hold2;
    a.inhale == b.inhale && a.hold1 == b.hold1 && a.exhale == b.exhale && a.hold2 == b.hold2
  }

  /** `isSameDurations` is an equivalence relation. */
  lemma IsSameDurationsEquivalence(a: Durations, b: Durations, c: Durations)
    ensures IsSameDurations(a, a)
    ensures IsSameDurations(a, b) == IsSameDurations(b, a)
    ensures IsSameDurations(a, b) && IsSameDurations(b, c) ==> IsSameDurations(a, c)
  {
  }

  /** `isSamePresetConfig`: a preset carries exactly these durations and this repeat length. */
  function IsSamePresetConfig(preset: Preset, durations: Durations, repeatMinutes: int): (r: bool)
    ensures r <==> preset.durations == durations && preset.repeatMinutes == repeatMinutes
  {
    IsSameDurations(preset.durations, durations) && preset.repeatMinutes == repeatMinutes
  }
}

=== FILE: wrappers.dfy ===
/** The optional-value type used wherever the source returns `null` or `undefined`. */
module Wrappers {

  datatype Option<+T> = None | Some(value: T)
}
